=== FILE: README.md ===
# Minesweeper knowledge-based player, modelled in Dafny

This project models the inference core of a Minesweeper player written in
Python (`minesweeper.py`). The player keeps a list of *sentences*, each
saying "exactly `count` of these `cells` are mines". It also keeps the sets
of cells already played (`moves_made`), known mines (`mines`) and known safe
cells (`safes`). Each time a cell is revealed, `add_knowledge` makes one
inference pass over the list. It records the move and appends the
neighbour sentence. It collects the cells that some sentence forces to be
mines or safe. It derives new sentences by subset difference. Last, it
removes duplicates. The board (`Minesweeper`) is modelled only as the
oracle that reports whether a cell is a mine and how many of a cell's
neighbours are mines.

The model is functional:

- `Sentence` is an immutable datatype.
- The player's state is a record `AI`.
- Each Python method that changes the player is a function from one state
  to the next.
- The two move queries are methods, because their choice is left open.

Layout:

- `lists.dfy` (module `Lists`): the Python list and set operations the
  player uses. `RemoveFirst` is `list.remove`, which drops the first
  value-equal element. `Dedup` is `list(set(xs))`.
- `grid.dfy` (module `Grid`): cells, bounds, adjacency, and
  `get_neighbors` (`GetNeighbors`, `NeighbourSet`).
- `game.dfy` (module `Game`): the board as a boolean grid, `is_mine` and
  `nearby_mines`.
- `sentence.dfy` (module `Logic`): `Sentence` and its operations. It also
  defines what it means for a sentence to be true for a mine set `m`,
  namely `|cells * m| == count`.
- `player.dfy` (module `Player`): `MinesweeperAI`. This holds the
  `mark_mine`/`mark_safe` propagation, the three phases of
  `add_knowledge` (`Observe`, `HarvestFrom`, `ReduceKnowledge`), and the
  two move queries.
- `scenarios.dfy` (module `Scenarios`): small boards worked through by
  hand. They show what one pass does and does not deduce.

The main correctness claim is soundness. The comment at `minesweeper.py:148`
says the sentences are "known to be true". `Player.Sound(ai, m)` states
three things about the real mine set `m`: every sentence is true for `m`,
every known mine is in `m`, and no known safe cell is in `m`.
`Player.AddKnowledgeSound` proves that `add_knowledge` keeps `Sound` when
two conditions hold: the played cell is not a mine, and the reported count
is the true number of mines among its neighbours. `Game.NearbyMines` proves
that this count is exactly what the board reports.

The model follows the code as written, which differs from an idealised
engine in these ways:

- **Known cells stay in the neighbour sentence.** The neighbour sentence
  holds every in-bounds neighbour, known or not. Its count is not reduced
  for known mines (`minesweeper.py:176-177`).
- **Harvested cells stay in their sentences.** Cells collected at lines
  186-189 are added to `mines`/`safes` but are not struck from the
  sentences. So the invariant "no known cell appears in a sentence" does
  not hold. `Scenarios.OneByTwoFindsMine` gives a state where it fails.
- **One pass only.** There is no fixpoint loop. A sentence derived by
  subset difference is harvested no earlier than the next call, and the
  skip described below can delay it further.
  `Scenarios.SinglePassDefersSafeCell` shows a cell proved safe by a
  derived sentence that is not yet in `safes`.
- **Removing while iterating skips the next sentence.** Line 181 removes
  from the list it is iterating over. Python's list iterator walks by
  position, so the element after a removed sentence is skipped.
  `Player.HarvestFrom` reproduces this walk exactly: an index over a
  sequence, with `list.remove`'s first-equal-element semantics.
  `Scenarios.HarvestSkipsAfterRemoval` shows a known mine that is missed
  this way. Soundness does not depend on this: skipping a sentence only
  loses deductions.

## Model

| member | source | states |
|---|---|---|
| `Lists.RemoveFirst` | minesweeper.py:181 | `list.remove(x)` cuts out position `FirstIndex(s, x)`, the first position holding `x` (as `Lists.FirstIndex` states), and keeps the others in order. So exactly one copy of `x` goes (multiset difference), and no new element appears. |
| `Lists.RemoveFirstCutsFirst` | minesweeper.py:181 | The same fact as `Lists.RemoveFirst`'s first postcondition, stated without `FirstIndex`: the result of `list.remove(x)` is the list cut at a position that holds `x` and has no `x` before it. |
| `Lists.Dedup` | minesweeper.py:201 | `list(set(xs))` has exactly the elements of `xs`, each once, and is no longer than `xs`. |
| `Grid.GetNeighbors` | minesweeper.py:216-219 | A cell is in the list iff it is on the board and touches the given cell, diagonals included, the cell itself excluded. The list has no repeats and at most 8 entries. |
| `Grid.NeighbourSetMembers` | minesweeper.py:176-177 | The cell set of the neighbour sentence holds the in-bounds adjacent cells, never the played cell, and at most 8 cells. |
| `Game.IsMine` | minesweeper.py:51-53 | The grid entry of an on-board cell is true iff the cell is in the board's mine set. |
| `Game.NearbyMines` | minesweeper.py:55-78 | The 3x3 scan returns the number of the cell's in-bounds neighbours that are mines, which lies in 0..8. |
| `Logic.Sentence.KnownMines` | minesweeper.py:111-114 | The known mines are either all of the sentence's cells or none of them. They are empty whenever the count lies outside 0..the number of cells. `Logic.KnownMinesExact` gives their meaning inside that range. |
| `Logic.Sentence.KnownSafes` | minesweeper.py:116-119 | The known safe cells are either all of the sentence's cells or none of them. They are empty whenever the count lies outside 0..the number of cells. `Logic.KnownSafesExact` gives their meaning inside that range. |
| `Logic.Sentence.MarkMine` | minesweeper.py:121-124 | The cell leaves the sentence, and the number of non-mines among the cells is kept. A cell not in the sentence changes nothing. `Logic.MarkMineTruth` shows truth is kept. |
| `Logic.Sentence.MarkSafe` | minesweeper.py:126-128 | The cell leaves the sentence, and the count is kept. A cell not in the sentence changes nothing. `Logic.MarkSafeTruth` shows truth is kept. |
| `Logic.KnownMinesSound` | minesweeper.py:111-114 | A true sentence reports only real mines as known mines. |
| `Logic.KnownMinesExact` | minesweeper.py:111-114 | For a satisfiable sentence, a cell is a known mine iff every mine set that makes the sentence true contains it. |
| `Logic.KnownSafesSound` | minesweeper.py:116-119 | A true sentence reports no mine as a known safe cell. |
| `Logic.KnownSafesExact` | minesweeper.py:116-119 | For a satisfiable sentence, a cell is a known safe cell iff no mine set that makes the sentence true contains it. |
| `Logic.MarkMineTruth` | minesweeper.py:121-124 | Striking a real mine (cell removed, count lowered) leaves a sentence true iff it was true. |
| `Logic.MarkSafeTruth` | minesweeper.py:126-128 | Striking a real non-mine (cell removed, count kept) leaves a sentence true iff it was true. |
| `Logic.MarkMineIdempotent` | minesweeper.py:121-124 | Striking the same mine from a sentence twice is the same as once. |
| `Logic.MarkSafeIdempotent` | minesweeper.py:126-128 | Striking the same safe cell from a sentence twice is the same as once. |
| `Logic.SubtractSound` | minesweeper.py:192-197 | When one true sentence's cells are inside another's, their difference is a true sentence and its count is not negative. |
| `Player.Init` | minesweeper.py:135-149 | A fresh player has the given dimensions, no moves, no known mines or safe cells and no sentences, and so is sound for every mine set. |
| `Player.SoundCountsInRange` | minesweeper.py:148 | In a sound state every sentence's count lies between 0 and its number of cells. |
| `Player.MarkMine` | minesweeper.py:151-158 | The cell joins `mines`, and nothing else of the state changes apart from the sentences. Each sentence loses the cell and keeps its number of non-mines. No sentence contains the cell afterwards. |
| `Player.MarkSafe` | minesweeper.py:160-167 | The cell joins `safes`, and nothing else of the state changes apart from the sentences. Each sentence loses the cell and keeps its count. No sentence contains the cell afterwards. |
| `Player.MarkMineSound` | minesweeper.py:151-158 | Marking a real mine keeps the state sound. |
| `Player.MarkSafeSound` | minesweeper.py:160-167 | Marking a real non-mine keeps the state sound. |
| `Player.MarkMineIdempotent` | minesweeper.py:151-158 | Marking the same mine twice gives the same state as marking it once. |
| `Player.MarkSafeIdempotent` | minesweeper.py:160-167 | Marking the same safe cell twice gives the same state as marking it once. |
| `Player.Observe` | minesweeper.py:170-177 | The played cell joins `moves_made` and `safes` and is in no sentence. The neighbour sentence is appended after the others. |
| `Player.HarvestFrom` | minesweeper.py:179-189 | The walk keeps dimensions and moves and only grows `mines` and `safes`. It never invents a sentence. Every cell it adds to `mines` (or `safes`) is a known mine (or known safe cell) of some sentence. Its removals are stated by `Player.HarvestShrinks`, `Player.HarvestRemovesFirstEmpty` and `Player.HarvestKeeps`. What it collects is stated by `Player.HarvestCollects`. |
| `Player.HarvestShrinks` | minesweeper.py:179-189 | The walk only removes: every sentence occurs in the result at most as often as before. |
| `Player.HarvestRemovesFirstEmpty` | minesweeper.py:180-181 | The first empty sentence at or after the walk's starting position is always removed: it occurs fewer times afterwards, and the list gets shorter. |
| `Player.HarvestCollects` | minesweeper.py:179-189 | Every non-empty sentence the walk visits has its known mines and known safe cells collected. The sentence at position `k` is visited when it is the first one or the sentence before it is not empty. |
| `Player.HarvestKeeps` | minesweeper.py:179-189 | The walk drops only empty sentences: every non-empty sentence is still in the list afterwards. |
| `Player.HarvestComplete` | minesweeper.py:179-189 | When none of the remaining sentences is empty, the walk drops and skips nothing, leaves the list unchanged, and collects every known mine and known safe cell. |
| `Player.HarvestSound` | minesweeper.py:179-189 | Harvesting keeps the state sound. |
| `Player.DeriveFrom` | minesweeper.py:193-197 | For one `s1`, the inner loop derives exactly the differences `s2 - s1` over every different `s2` whose cells contain those of `s1`. |
| `Player.DeriveAll` | minesweeper.py:192-197 | The nested loops derive exactly the differences of all ordered pairs of different sentences where the first's cells lie inside the second's. |
| `Player.DeriveSound` | minesweeper.py:192-197 | Every sentence derived from true sentences is true and has a count that is not negative. |
| `Player.ReduceKnowledge` | minesweeper.py:191-201 | The knowledge keeps every old sentence and gains every subset difference. It gains nothing else. Afterwards no sentence occurs twice. `mines`, `safes` and `moves_made` are unchanged. |
| `Player.AddKnowledge` | minesweeper.py:169-201 | The cell joins `moves_made` and `safes`. Known sets only grow. Afterwards no sentence mentions the cell and no sentence occurs twice. A non-empty neighbour sentence is kept. |
| `Player.AddKnowledgeHarvestsObservation` | minesweeper.py:169-189 | Suppose the last older sentence, if there is one, does not become empty when the played cell is struck. Then the same call makes every neighbour safe when the count is 0, and makes every neighbour a mine when the count equals the number of neighbours. |
| `Player.AddKnowledgeSound` | minesweeper.py:169-201 | Given a truthful observation (a non-mine cell and its true neighbour-mine count), a sound state stays sound, and known mines and known safe cells stay disjoint. |
| `Player.MakeSafeMove` | minesweeper.py:203-207 | Returns the first cell in the set's iteration order that is in `safes` but not played. Returns nothing iff every safe cell has been played. |
| `Player.MakeRandomMove` | minesweeper.py:209-213 | Returns an on-board cell that is neither played nor a known mine. Returns nothing iff every on-board cell is played or a known mine. |
| `Scenarios.OneByTwoFindsMine` | minesweeper.py:169-189 | On a 1x2 board, revealing (0, 0) with count 1 makes (0, 1) a known mine. The sentence `{(0, 1)} = 1` stays in the knowledge. |
| `Scenarios.TwoByTwoZeroClearsNeighbours` | minesweeper.py:169-189 | On a 2x2 board, revealing (0, 0) with count 0 puts the three other cells in `safes` within one call. |
| `Scenarios.HarvestSkipsAfterRemoval` | minesweeper.py:179-189 | After an empty sentence is removed, the next sentence is skipped, and its known mine is not collected. |
| `Scenarios.SinglePassDefersSafeCell` | minesweeper.py:169-201 | One pass derives "no mine at (0, 2)" but does not yet add (0, 2) to `safes`. |

## Left out

- Random mine placement in `Minesweeper.__init__` (lines 10-34): it is an RNG loop. The board is given as a grid instead.
- `Minesweeper.print`, `Sentence.__str__` and `Minesweeper.won`: console output and a game-over test, outside the inference core.
- `Sentence.__hash__`: Dafny datatypes have value equality. The deduplication at line 201 is modelled by `Lists.Dedup`.
- The order of `list(set(...))` at line 201: Python's hash table decides it. `Lists.Dedup` fixes one order. No property proved here depends on it.
- The iteration order of the set `safes` in `make_safe_move`: it is passed in as the parameter `order`.
- The uniform distribution of `random.choice` in `make_random_move`: only the candidate set is specified, and the pick is any element of it.
- `Game.IsMine`: Python would also accept negative indices by wrapping around. The model requires an on-board cell.
- The in-place mutation of `Sentence` objects: sentences in the list are distinct objects, so mutating each in place is the same as replacing each by its updated value, which is what the model does.
- Known mines and known safes "do not change the sentence": this holds by construction, since Dafny functions have no side effects.
- A saturation fixpoint, count adjustment for known mines, and excluding known cells from the neighbour sentence: the code does none of these, so neither does the model.

=== FILE: game.dfy ===
/** The `Minesweeper` board as the player's oracle: a rectangular grid of
    booleans, `true` where a mine lies. Mine placement is not modelled; the
    grid is given. */
module Game {
  import opened Grid

  datatype Board = Board(height: nat, width: nat, grid: seq<seq<bool>>) {

    /** The grid has `height` rows of `width` cells each. */
    predicate Valid() {
      |grid| == height && forall i :: 0 <= i < |grid| ==> |grid[i]| == width
    }

    /** The true mine positions. */
    function Mines(): set<Cell>
      requires Valid()
    {
      set i, j | 0 <= i < height && 0 <= j < width && grid[i][j] :: (i, j)
    }
  }

  /** `Minesweeper.is_mine`: the grid entry of an on-board cell, which is
      exactly membership in the mine set. */
  function IsMine(b: Board, c: Cell): (r: bool)
    requires b.Valid() && InBounds(c, b.height, b.width)
    ensures r <==> c in b.Mines()
  {
    b.grid[c.0][c.1]
  }

  /** The cells of the 3x3 block around `c`, other than `c`, that a row-major
      scan reaches before position `(i, j)`. */
  ghost function Scanned(c: Cell, i: int, j: int): set<Cell> {
    set a, b | c.0 - 1 <= a <= c.0 + 1 && c.1 - 1 <= b <= c.1 + 1
               && (a, b) != c && (a < i || (a == i && b < j)) :: (a, b)
  }

  lemma ScanStep(c: Cell, i: int, j: int)
    requires c.0 - 1 <= i <= c.0 + 1 && c.1 - 1 <= j <= c.1 + 1
    ensures (i, j) !in Scanned(c, i, j)
    ensures (i, j) == c ==> Scanned(c, i, j + 1) == Scanned(c, i, j)
    ensures (i, j) != c ==> Scanned(c, i, j + 1) == Scanned(c, i, j) + {(i, j)}
  {
  }

  lemma ScanStart(c: Cell)
    ensures Scanned(c, c.0 - 1, c.1 - 1) == {}
  {
  }

  lemma ScanNextRow(c: Cell, i: int)
    ensures Scanned(c, i, c.1 + 2) == Scanned(c, i + 1, c.1 - 1)
  {
  }

  lemma ScanComplete(b: Board, c: Cell)
    requires b.Valid()
    ensures Scanned(c, c.0 + 2, c.1 - 1) * b.Mines() == NeighbourSet(c, b.height, b.width) * b.Mines()
  {
    NeighbourSetMembers(c, b.height, b.width);
  }

  /** Adding one new cell to a set adds one to its mine count exactly when
      that cell is a mine. */
  lemma CountWithOneMore(s: set<Cell>, x: Cell, m: set<Cell>)
    requires x !in s
    ensures |(s + {x}) * m| == |s * m| + (if x in m then 1 else 0)
  {
    if x in m {
      assert (s + {x}) * m == s * m + {x};
    } else {
      assert (s + {x}) * m == s * m;
    }
  }

  /** One step of the scan: position `(i, j)` adds one to the count exactly
      when it is not the centre, lies on the board and holds a mine. */
  lemma ScanCount(b: Board, c: Cell, i: int, j: int)
    requires b.Valid()
    requires c.0 - 1 <= i <= c.0 + 1 && c.1 - 1 <= j <= c.1 + 1
    ensures |Scanned(c, i, j + 1) * b.Mines()| == |Scanned(c, i, j) * b.Mines()|
              + (if (i, j) != c && 0 <= i < b.height && 0 <= j < b.width && b.grid[i][j] then 1 else 0)
  {
    ScanStep(c, i, j);
    if (i, j) != c {
      CountWithOneMore(Scanned(c, i, j), (i, j), b.Mines());
    }
  }

  lemma SubsetSize(a: set<Cell>, b: set<Cell>)
    requires a <= b
    ensures |a| <= |b|
  {
    assert b == a + (b - a);
  }

  lemma NearbyBound(b: Board, c: Cell)
    requires b.Valid()
    ensures |NeighbourSet(c, b.height, b.width) * b.Mines()| <= 8
  {
    NeighbourSetMembers(c, b.height, b.width);
    var n := NeighbourSet(c, b.height, b.width);
    SubsetSize(n * b.Mines(), n);
  }

  /** One row of the scan in `nearby_mines`: columns `cell.1 - 1` to
      `cell.1 + 1` of row `i`, adding each mine met to `count`. */
  method ScanRow(b: Board, cell: Cell, i: int, count0: nat) returns (count: nat)
    requires b.Valid()
    requires cell.0 - 1 <= i <= cell.0 + 1
    requires count0 == |Scanned(cell, i, cell.1 - 1) * b.Mines()|
    ensures count == |Scanned(cell, i + 1, cell.1 - 1) * b.Mines()|
  {
    count := count0;
    var j := cell.1 - 1;
    while j < cell.1 + 2
      invariant cell.1 - 1 <= j <= cell.1 + 2
      invariant count == |Scanned(cell, i, j) * b.Mines()|
    {
      ScanCount(b, cell, i, j);
      if (i, j) != cell {
        if 0 <= i < b.height && 0 <= j < b.width {
          if b.grid[i][j] {
            count := count + 1;
          }
        }
      }
      j := j + 1;
    }
    ScanNextRow(cell, i);
  }

  /** `Minesweeper.nearby_mines`: scan the 3x3 block around `cell`, skip the
      cell itself and out-of-bounds positions, count the mines. The count is
      the number of the cell's neighbours that are mines, so at most 8. */
  method NearbyMines(b: Board, cell: Cell) returns (count: nat)
    requires b.Valid()
    ensures count == |NeighbourSet(cell, b.height, b.width) * b.Mines()|
    ensures count <= 8
  {
    count := 0;
    var i := cell.0 - 1;
    ScanStart(cell);
    while i < cell.0 + 2
      invariant cell.0 - 1 <= i <= cell.0 + 2
      invariant count == |Scanned(cell, i, cell.1 - 1) * b.Mines()|
    {
      count := ScanRow(b, cell, i, count);
      i := i + 1;
    }
    ScanComplete(b, cell);
    NearbyBound(b, cell);
  }
}

=== FILE: grid.dfy ===
/** Board geometry shared by the game and the player: cells are
    `(row, column)` pairs, and a cell's neighbours are the in-bounds cells
    within one row and one column of it, the cell itself excluded. */
module Grid {
  import opened Lists

  type Cell = (int, int)

  predicate InBounds(c: Cell, height: int, width: int) {
    0 <= c.0 < height && 0 <= c.1 < width
  }

  /** `d` is one of the (up to) eight cells touching `c`, diagonals included. */
  predicate Adjacent(c: Cell, d: Cell) {
    d != c && -1 <= d.0 - c.0 <= 1 && -1 <= d.1 - c.1 <= 1
  }

  /** The eight surrounding cells in the order the player enumerates them:
      row offset -1, 0, 1 outermost, column offset -1, 0, 1 innermost, the
      offset (0, 0) skipped. Bounds are not yet applied. */
  function Around(c: Cell): seq<Cell> {
    var (i, j) := c;
    [(i - 1, j - 1), (i - 1, j), (i - 1, j + 1),
     (i, j - 1), (i, j + 1),
     (i + 1, j - 1), (i + 1, j), (i + 1, j + 1)]
  }

  lemma AroundIsAdjacent(c: Cell)
    ensures |Around(c)| == 8
    ensures forall d :: d in Around(c) <==> Adjacent(c, d)
    ensures NoDuplicates(Around(c))
  {
    forall d | Adjacent(c, d) ensures d in Around(c) {
      var (i, j) := c;
      if d.0 == i - 1 {
        assert d == Around(c)[0] || d == Around(c)[1] || d == Around(c)[2];
      } else if d.0 == i {
        assert d == Around(c)[3] || d == Around(c)[4];
      } else {
        assert d == Around(c)[5] || d == Around(c)[6] || d == Around(c)[7];
      }
    }
  }

  /** The in-bounds elements of `s`, in order. */
  function KeepInBounds(s: seq<Cell>, height: int, width: int): (r: seq<Cell>)
    ensures forall d :: d in r <==> d in s && InBounds(d, height, width)
    ensures |r| <= |s|
    ensures NoDuplicates(s) ==> NoDuplicates(r)
  {
    if s == [] then []
    else
      var r' := KeepInBounds(s[1..], height, width);
      if InBounds(s[0], height, width) then
        var r := [s[0]] + r';
        assert NoDuplicates(s) ==> NoDuplicates(r) by {
          if NoDuplicates(s) {
            forall i, j | 0 <= i < j < |r| ensures r[i] != r[j] {
              assert r[j] == r'[j - 1];
              if i > 0 {
                assert r[i] == r'[i - 1];
              }
            }
          }
        }
        r
      else r'
  }

  /** `MinesweeperAI.get_neighbors`: every in-bounds cell touching `c`, at
      most eight, each once. */
  function GetNeighbors(c: Cell, height: int, width: int): (r: seq<Cell>)
    ensures forall d :: d in r <==> InBounds(d, height, width) && Adjacent(c, d)
    ensures NoDuplicates(r)
    ensures |r| <= 8
  {
    AroundIsAdjacent(c);
    KeepInBounds(Around(c), height, width)
  }

  /** The neighbours of `c` as a set, as the player stores them in a sentence. */
  function NeighbourSet(c: Cell, height: int, width: int): set<Cell> {
    Elements(GetNeighbors(c, height, width))
  }

  lemma NeighbourSetMembers(c: Cell, height: int, width: int)
    ensures forall d :: d in NeighbourSet(c, height, width) <==> InBounds(d, height, width) && Adjacent(c, d)
    ensures c !in NeighbourSet(c, height, width)
    ensures |NeighbourSet(c, height, width)| <= 8
  {
    ElementsSize(GetNeighbors(c, height, width));
  }
}

=== FILE: lists.dfy ===
/** The few Python list and set operations the player relies on, over Dafny
    sequences: the elements of a list as a set, `list.remove(x)` (which drops
    the FIRST element equal to `x`), and `list(set(xs))` (deduplication by
    value equality, in some order). */
module Lists {

  /** No element occurs twice. */
  predicate NoDuplicates<T(==)>(s: seq<T>) {
    forall i, j :: 0 <= i < j < |s| ==> s[i] != s[j]
  }

  /** The set of a list's elements, as Python's `set(xs)`. */
  function Elements<T>(s: seq<T>): set<T> {
    set x | x in s
  }

  lemma {:induction false} ElementsSize<T>(s: seq<T>)
    ensures |Elements(s)| <= |s|
    ensures NoDuplicates(s) ==> |Elements(s)| == |s|
  {
    if s != [] {
      ElementsSize(s[1..]);
      assert Elements(s) == Elements(s[1..]) + {s[0]};
      if NoDuplicates(s) {
        assert NoDuplicates(s[1..]);
        assert s[0] !in s[1..] by {
          forall k | 0 <= k < |s[1..]| ensures s[1..][k] != s[0] {
            assert s[1..][k] == s[k + 1];
          }
        }
      }
    }
  }

  /** A list whose elements occur at most as often as in `a`, one of them
      strictly less often, is shorter than `a`. */
  lemma FewerOccurrences<T>(b: seq<T>, a: seq<T>, e: T)
    requires multiset(b) <= multiset(a)
    requires multiset(b)[e] < multiset(a)[e]
    ensures |b| < |a|
  {
    var ma := multiset(a);
    var mb := multiset(b);
    assert ma == mb + (ma - mb);
    assert e in ma - mb;
  }

  /** The position of the first element equal to `x`. */
  function FirstIndex<T(==)>(s: seq<T>, x: T): (k: nat)
    requires x in s
    ensures k < |s| && s[k] == x && x !in s[..k]
  {
    if s[0] == x then 0
    else
      var k' := FirstIndex(s[1..], x);
      assert s[..k' + 1] == [s[0]] + s[1..][..k'];
      k' + 1
  }

  /** Python's `xs.remove(x)`: the first element equal to `x` goes, the
      others keep their order. */
  function RemoveFirst<T(==)>(s: seq<T>, x: T): (r: seq<T>)
    requires x in s
    ensures var k := FirstIndex(s, x); r == s[..k] + s[k + 1..]
    ensures |r| == |s| - 1
    ensures multiset(r) + multiset{x} == multiset(s)
    ensures forall y :: y in r ==> y in s
    ensures forall y :: y in s && y != x ==> y in r
  {
    var k := FirstIndex(s, x);
    assert s == s[..k] + [s[k]] + s[k + 1..];
    var r := s[..k] + s[k + 1..];
    assert forall y :: y in r ==> y in s by {
      forall y | y in r ensures y in s {
        assert y in multiset(r);
      }
    }
    assert forall y :: y in s && y != x ==> y in r by {
      forall y | y in s && y != x ensures y in r {
        assert y in multiset(s);
        assert multiset(r)[y] == multiset(s)[y];
      }
    }
    r
  }

  /** Elements after the first copy of `x` move one position down when
      `list.remove(x)` drops that copy. */
  lemma RemoveFirstShifts<T>(s: seq<T>, x: T, i: int, p: int)
    requires 0 <= i < p < |s| && s[i] == x
    ensures RemoveFirst(s, x)[p - 1] == s[p]
  {
    var k := FirstIndex(s, x);
    assert k <= i;
  }

  /** The same fact as `RemoveFirst`'s first postcondition, stated without
      `FirstIndex`: `list.remove` cuts the list at a position that holds `x`
      and has no `x` before it, and keeps everything else in order. */
  lemma RemoveFirstCutsFirst<T>(s: seq<T>, x: T)
    requires x in s
    ensures exists k :: 0 <= k < |s| && s[k] == x && x !in s[..k] && RemoveFirst(s, x) == s[..k] + s[k + 1..]
  {
    var k := FirstIndex(s, x);
    assert RemoveFirst(s, x) == s[..k] + s[k + 1..];
  }

  /** Python's `list(set(xs))`: the same elements, each once. Python leaves
      the order to the hash table; this keeps the last occurrence of each. */
  function Dedup<T(==)>(s: seq<T>): (r: seq<T>)
    ensures Elements(r) == Elements(s)
    ensures NoDuplicates(r)
    ensures |r| <= |s|
  {
    if s == [] then []
    else if s[0] in s[1..] then Dedup(s[1..])
    else
      var r' := Dedup(s[1..]);
      var r := [s[0]] + r';
      assert s[0] !in r' by {
        assert s[0] !in Elements(s[1..]);
      }
      assert Elements(r) == Elements(r') + {s[0]};
      assert Elements(s) == Elements(s[1..]) + {s[0]};
      assert NoDuplicates(r) by {
        forall i, j | 0 <= i < j < |r| ensures r[i] != r[j] {
          assert r[j] == r'[j - 1];
          if i > 0 {
            assert r[i] == r'[i - 1];
          }
        }
      }
      r
  }
}

=== FILE: player.dfy ===
/** `MinesweeperAI`: the knowledge-based player. Its state is a record of the
    cells already played, the cells known to be mines or safe, and the list of
    sentences it believes; every method of the player is a function from one
    state to the next. */
module Player {
  import opened Lists
  import opened Grid
  import opened Logic

  datatype AI = AI(
    height: nat,
    width: nat,
    movesMade: set<Cell>,
    mines: set<Cell>,
    safes: set<Cell>,
    knowledge: seq<Sentence>)

  /** The state is consistent with the real mine set `m`: every sentence is
      true for `m`, every known mine is in `m`, no known safe cell is. */
  ghost predicate Sound(ai: AI, m: set<Cell>) {
    && (forall s :: s in ai.knowledge ==> s.TrueFor(m))
    && ai.mines <= m
    && ai.safes !! m
  }

  /** In a sound state every sentence is satisfiable: its count lies
      between 0 and its number of cells. */
  lemma SoundCountsInRange(ai: AI, m: set<Cell>)
    requires Sound(ai, m)
    ensures forall s :: s in ai.knowledge ==> 0 <= s.count <= |s.cells|
  {
    forall s | s in ai.knowledge ensures 0 <= s.count <= |s.cells| {
      assert s.cells == s.cells * m + (s.cells - s.cells * m);
    }
  }

  /** A fresh player knows nothing, which is sound for any board. */
  function Init(height: nat, width: nat): (r: AI)
    ensures r.height == height && r.width == width
    ensures r.movesMade == {} && r.mines == {} && r.safes == {} && r.knowledge == []
    ensures forall m :: Sound(r, m)
  {
    AI(height, width, {}, {}, {}, [])
  }

  // ---- mark_mine and mark_safe ----

  /** `MinesweeperAI.mark_mine`: record a mine and strike it from every sentence. */
  function MarkMine(ai: AI, c: Cell): (r: AI)
    ensures r.mines == ai.mines + {c}
    ensures r.safes == ai.safes && r.movesMade == ai.movesMade
    ensures r.height == ai.height && r.width == ai.width
    ensures |r.knowledge| == |ai.knowledge|
    ensures forall k :: 0 <= k < |r.knowledge| ==>
              && r.knowledge[k].cells == ai.knowledge[k].cells - {c}
              && |r.knowledge[k].cells| - r.knowledge[k].count == |ai.knowledge[k].cells| - ai.knowledge[k].count
    ensures forall s :: s in r.knowledge ==> c !in s.cells
  {
    var ks := ai.knowledge;
    ai.(mines := ai.mines + {c},
        knowledge := seq(|ks|, k requires 0 <= k < |ks| => ks[k].MarkMine(c)))
  }

  /** `MinesweeperAI.mark_safe`: record a safe cell and strike it from every sentence. */
  function MarkSafe(ai: AI, c: Cell): (r: AI)
    ensures r.safes == ai.safes + {c}
    ensures r.mines == ai.mines && r.movesMade == ai.movesMade
    ensures r.height == ai.height && r.width == ai.width
    ensures |r.knowledge| == |ai.knowledge|
    ensures forall k :: 0 <= k < |r.knowledge| ==>
              && r.knowledge[k].cells == ai.knowledge[k].cells - {c}
              && r.knowledge[k].count == ai.knowledge[k].count
    ensures forall s :: s in r.knowledge ==> c !in s.cells
  {
    var ks := ai.knowledge;
    ai.(safes := ai.safes + {c},
        knowledge := seq(|ks|, k requires 0 <= k < |ks| => ks[k].MarkSafe(c)))
  }

  /** Marking a real mine keeps the state sound. */
  lemma MarkMineSound(ai: AI, c: Cell, m: set<Cell>)
    requires Sound(ai, m) && c in m
    ensures Sound(MarkMine(ai, c), m)
  {
    var r := MarkMine(ai, c);
    forall k | 0 <= k < |r.knowledge| ensures r.knowledge[k].TrueFor(m) {
      MarkMineTruth(ai.knowledge[k], c, m);
    }
  }

  /** Marking a real non-mine keeps the state sound. */
  lemma MarkSafeSound(ai: AI, c: Cell, m: set<Cell>)
    requires Sound(ai, m) && c !in m
    ensures Sound(MarkSafe(ai, c), m)
  {
    var r := MarkSafe(ai, c);
    forall k | 0 <= k < |r.knowledge| ensures r.knowledge[k].TrueFor(m) {
      MarkSafeTruth(ai.knowledge[k], c, m);
    }
  }

  /** Marking the same mine twice is marking it once. */
  lemma MarkMineIdempotent(ai: AI, c: Cell)
    ensures MarkMine(MarkMine(ai, c), c) == MarkMine(ai, c)
  {
  }

  /** Marking the same safe cell twice is marking it once. */
  lemma MarkSafeIdempotent(ai: AI, c: Cell)
    ensures MarkSafe(MarkSafe(ai, c), c) == MarkSafe(ai, c)
  {
  }

  // ---- the harvesting loop of add_knowledge ----

  /** The loop of `add_knowledge` that drops empty sentences and collects the
      known mines and safes of the others, from position `i` on. It walks the
      list by position while removing from it, as Python's list iterator
      does: removing the sentence at `i` shifts its successor into position
      `i`, and the walk goes on at `i + 1`, so that successor is never
      visited. The collected cells are added to `mines` and `safes` only;
      the sentences keep them. */
  function HarvestFrom(ai: AI, i: nat): (r: AI)
    decreases |ai.knowledge| - i
    ensures r.height == ai.height && r.width == ai.width && r.movesMade == ai.movesMade
    ensures ai.mines <= r.mines && ai.safes <= r.safes
    ensures forall s :: s in r.knowledge ==> s in ai.knowledge
    ensures forall x :: x in r.mines ==> x in ai.mines || exists s :: s in ai.knowledge && x in s.KnownMines()
    ensures forall x :: x in r.safes ==> x in ai.safes || exists s :: s in ai.knowledge && x in s.KnownSafes()
  {
    if i >= |ai.knowledge| then ai
    else
      var s := ai.knowledge[i];
      if s.cells == {} then
        HarvestFrom(ai.(knowledge := RemoveFirst(ai.knowledge, s)), i + 1)
      else
        HarvestFrom(ai.(mines := ai.mines + s.KnownMines(), safes := ai.safes + s.KnownSafes()), i + 1)
  }

  /** Harvesting drops only empty sentences: every non-empty sentence is
      still in the list afterwards. */
  lemma {:induction false} HarvestKeeps(ai: AI, i: nat)
    decreases |ai.knowledge| - i
    ensures forall s :: s in ai.knowledge && s.cells != {} ==> s in HarvestFrom(ai, i).knowledge
  {
    if i < |ai.knowledge| {
      var s := ai.knowledge[i];
      var next := if s.cells == {} then ai.(knowledge := RemoveFirst(ai.knowledge, s))
                  else ai.(mines := ai.mines + s.KnownMines(), safes := ai.safes + s.KnownSafes());
      assert forall x :: x in ai.knowledge && x.cells != {} ==> x in next.knowledge;
      assert HarvestFrom(ai, i) == HarvestFrom(next, i + 1);
      HarvestKeeps(next, i + 1);
    }
  }

  /** Harvesting only takes sentences away: each sentence occurs in the
      result at most as often as before. */
  lemma {:induction false} HarvestShrinks(ai: AI, i: nat)
    decreases |ai.knowledge| - i
    ensures multiset(HarvestFrom(ai, i).knowledge) <= multiset(ai.knowledge)
  {
    if i < |ai.knowledge| {
      var s := ai.knowledge[i];
      if s.cells == {} {
        HarvestShrinks(ai.(knowledge := RemoveFirst(ai.knowledge, s)), i + 1);
      } else {
        HarvestShrinks(ai.(mines := ai.mines + s.KnownMines(), safes := ai.safes + s.KnownSafes()), i + 1);
      }
    }
  }

  /** The walk always removes the first empty sentence at or after position
      `i`: that sentence occurs fewer times afterwards, and the list is
      shorter. */
  lemma {:induction false} HarvestRemovesFirstEmpty(ai: AI, i: nat, k: nat)
    requires i <= k < |ai.knowledge| && ai.knowledge[k].cells == {}
    requires forall j :: i <= j < k ==> ai.knowledge[j].cells != {}
    decreases k - i
    ensures multiset(HarvestFrom(ai, i).knowledge)[ai.knowledge[k]] < multiset(ai.knowledge)[ai.knowledge[k]]
    ensures |HarvestFrom(ai, i).knowledge| < |ai.knowledge|
  {
    var s := ai.knowledge[i];
    var e := ai.knowledge[k];
    if k == i {
      var next := ai.(knowledge := RemoveFirst(ai.knowledge, s));
      assert HarvestFrom(ai, i) == HarvestFrom(next, i + 1);
      HarvestShrinks(next, i + 1);
      assert multiset(next.knowledge)[e] < multiset(ai.knowledge)[e];
    } else {
      var next := ai.(mines := ai.mines + s.KnownMines(), safes := ai.safes + s.KnownSafes());
      assert HarvestFrom(ai, i) == HarvestFrom(next, i + 1);
      HarvestRemovesFirstEmpty(next, i + 1, k);
    }
    HarvestShrinks(ai, i);
    FewerOccurrences(HarvestFrom(ai, i).knowledge, ai.knowledge, e);
  }

  /** A non-empty sentence at the walk's current position has its known
      cells collected. */
  lemma HarvestCollectsHere(ai: AI, i: nat)
    requires i < |ai.knowledge| && ai.knowledge[i].cells != {}
    ensures ai.knowledge[i].KnownMines() <= HarvestFrom(ai, i).mines
    ensures ai.knowledge[i].KnownSafes() <= HarvestFrom(ai, i).safes
  {
    var s := ai.knowledge[i];
    var next := ai.(mines := ai.mines + s.KnownMines(), safes := ai.safes + s.KnownSafes());
    assert HarvestFrom(ai, i) == HarvestFrom(next, i + 1);
  }

  /** The walk collects the known mines and known safe cells of every
      non-empty sentence it visits. The sentence at position `k` is visited
      unless the sentence just before it is empty: removing that one slides
      it back into the position the walk has just left. */
  lemma {:induction false} HarvestCollects(ai: AI, i: nat, k: nat)
    requires i <= k < |ai.knowledge| && ai.knowledge[k].cells != {}
    requires k == i || ai.knowledge[k - 1].cells != {}
    decreases k - i
    ensures ai.knowledge[k].KnownMines() <= HarvestFrom(ai, i).mines
    ensures ai.knowledge[k].KnownSafes() <= HarvestFrom(ai, i).safes
  {
    var s := ai.knowledge[i];
    if k == i {
      HarvestCollectsHere(ai, i);
    } else if s.cells == {} {
      assert i + 1 < k by {
        assert ai.knowledge[k - 1].cells != {};
      }
      var next := ai.(knowledge := RemoveFirst(ai.knowledge, s));
      RemoveFirstShifts(ai.knowledge, s, i, k);
      RemoveFirstShifts(ai.knowledge, s, i, k - 1);
      HarvestCollects(next, i + 1, k - 1);
      assert HarvestFrom(ai, i) == HarvestFrom(next, i + 1);
    } else {
      var next := ai.(mines := ai.mines + s.KnownMines(), safes := ai.safes + s.KnownSafes());
      HarvestCollects(next, i + 1, k);
      assert HarvestFrom(ai, i) == HarvestFrom(next, i + 1);
    }
  }

  /** When no sentence from position `i` on is empty, the walk removes and
      skips nothing: the list is unchanged, and every known mine and known
      safe cell of those sentences is collected. */
  lemma {:induction false} HarvestComplete(ai: AI, i: nat)
    requires forall k :: i <= k < |ai.knowledge| ==> ai.knowledge[k].cells != {}
    decreases |ai.knowledge| - i
    ensures HarvestFrom(ai, i).knowledge == ai.knowledge
    ensures forall k :: i <= k < |ai.knowledge| ==>
              && ai.knowledge[k].KnownMines() <= HarvestFrom(ai, i).mines
              && ai.knowledge[k].KnownSafes() <= HarvestFrom(ai, i).safes
  {
    if i < |ai.knowledge| {
      var s := ai.knowledge[i];
      HarvestComplete(ai.(mines := ai.mines + s.KnownMines(), safes := ai.safes + s.KnownSafes()), i + 1);
    }
  }

  /** Harvesting keeps the state sound. */
  lemma HarvestSound(ai: AI, i: nat, m: set<Cell>)
    requires Sound(ai, m)
    ensures Sound(HarvestFrom(ai, i), m)
  {
    var r := HarvestFrom(ai, i);
    forall x | x in r.mines ensures x in m {
      if x !in ai.mines {
        var s :| s in ai.knowledge && x in s.KnownMines();
        KnownMinesSound(s, m);
      }
    }
    forall x | x in r.safes ensures x !in m {
      if x !in ai.safes {
        var s :| s in ai.knowledge && x in s.KnownSafes();
        KnownSafesSound(s, m);
      }
    }
  }

  // ---- the subset reduction of add_knowledge ----

  /** `d` is what the reduction derives from the ordered pair `(s1, s2)`:
      the two differ, the cells of `s1` are among those of `s2`, and `d` is
      their difference. */
  ghost predicate Reduces(s1: Sentence, s2: Sentence, d: Sentence) {
    s1 != s2 && s1.cells <= s2.cells && d == Subtract(s1, s2)
  }

  /** The inner loop of the reduction for one `s1`, over every `s2` in `twos`. */
  function DeriveFrom(s1: Sentence, twos: seq<Sentence>): (r: seq<Sentence>)
    ensures forall d :: d in r ==> exists s2 :: s2 in twos && Reduces(s1, s2, d)
    ensures forall s2 :: s2 in twos && s1 != s2 && s1.cells <= s2.cells ==> Subtract(s1, s2) in r
  {
    if twos == [] then []
    else
      var s2 := twos[0];
      var here := if s1 != s2 && s1.cells <= s2.cells then [Subtract(s1, s2)] else [];
      var later := DeriveFrom(s1, twos[1..]);
      assert forall d :: d in here ==> Reduces(s1, s2, d);
      here + later
  }

  /** The whole reduction: every ordered pair `(s1, s2)` with `s1` from
      `ones` and `s2` from `twos`, in the order of the two nested loops. */
  function DeriveAll(ones: seq<Sentence>, twos: seq<Sentence>): (r: seq<Sentence>)
    ensures forall d :: d in r ==> exists s1, s2 :: s1 in ones && s2 in twos && Reduces(s1, s2, d)
    ensures forall s1, s2 :: s1 in ones && s2 in twos && s1 != s2 && s1.cells <= s2.cells ==> Subtract(s1, s2) in r
  {
    if ones == [] then []
    else
      var first := DeriveFrom(ones[0], twos);
      var rest := DeriveAll(ones[1..], twos);
      assert forall d :: d in first ==> exists s2 :: s2 in twos && Reduces(ones[0], s2, d);
      first + rest
  }

  /** Every sentence the reduction derives from true sentences is true. */
  lemma DeriveSound(ks: seq<Sentence>, m: set<Cell>)
    requires forall s :: s in ks ==> s.TrueFor(m)
    ensures forall d :: d in DeriveAll(ks, ks) ==> d.TrueFor(m) && d.count >= 0
  {
    forall d | d in DeriveAll(ks, ks) ensures d.TrueFor(m) && d.count >= 0 {
      var s1, s2 :| s1 in ks && s2 in ks && Reduces(s1, s2, d);
      SubtractSound(s1, s2, m);
    }
  }

  /** The reduction step of `add_knowledge` and the deduplication that ends
      it: every sentence is kept, the derived ones are appended, and equal
      sentences are merged. */
  function ReduceKnowledge(ai: AI): (r: AI)
    ensures r.height == ai.height && r.width == ai.width && r.movesMade == ai.movesMade
    ensures r.mines == ai.mines && r.safes == ai.safes
    ensures NoDuplicates(r.knowledge)
    ensures forall s :: s in ai.knowledge ==> s in r.knowledge
    ensures forall s :: s in r.knowledge ==>
              s in ai.knowledge || exists s1, s2 :: s1 in ai.knowledge && s2 in ai.knowledge && Reduces(s1, s2, s)
    ensures forall s1, s2 :: s1 in ai.knowledge && s2 in ai.knowledge && s1 != s2 && s1.cells <= s2.cells ==>
              Subtract(s1, s2) in r.knowledge
  {
    var all := ai.knowledge + DeriveAll(ai.knowledge, ai.knowledge);
    var r := Dedup(all);
    assert forall s :: s in r <==> s in all by {
      forall s ensures s in r <==> s in all {
        assert s in r <==> s in Elements(r);
        assert s in all <==> s in Elements(all);
      }
    }
    ai.(knowledge := r)
  }

  /** The recording step of `add_knowledge`: the played cell is recorded as a move
      and as safe, struck from every sentence, and the sentence "the
      neighbours of `cell` hold `count` mines" is appended. The neighbours
      are all in-bounds adjacent cells, known or not, and `count` is taken
      as given. */
  function Observe(ai: AI, cell: Cell, count: int): (r: AI)
    ensures r.height == ai.height && r.width == ai.width
    ensures r.movesMade == ai.movesMade + {cell}
    ensures r.safes == ai.safes + {cell} && r.mines == ai.mines
    ensures forall s :: s in r.knowledge ==> cell !in s.cells
    ensures |r.knowledge| == |ai.knowledge| + 1
    ensures forall k :: 0 <= k < |ai.knowledge| ==>
              r.knowledge[k].cells == ai.knowledge[k].cells - {cell} && r.knowledge[k].count == ai.knowledge[k].count
    ensures r.knowledge[|ai.knowledge|] == Sentence(NeighbourSet(cell, ai.height, ai.width), count)
  {
    var marked := MarkSafe(ai.(movesMade := ai.movesMade + {cell}), cell);
    NeighbourSetMembers(cell, ai.height, ai.width);
    marked.(knowledge := marked.knowledge + [Sentence(NeighbourSet(cell, ai.height, ai.width), count)])
  }

  /** `MinesweeperAI.add_knowledge`: one pass of inference after the cell
      `cell` was played and showed `count` neighbouring mines. */
  function AddKnowledge(ai: AI, cell: Cell, count: int): (r: AI)
    ensures r.height == ai.height && r.width == ai.width
    ensures r.movesMade == ai.movesMade + {cell}
    ensures cell in r.safes
    ensures ai.mines <= r.mines && ai.safes <= r.safes
    ensures forall s :: s in r.knowledge ==> cell !in s.cells
    ensures NoDuplicates(r.knowledge)
    ensures NeighbourSet(cell, ai.height, ai.width) != {} ==>
              Sentence(NeighbourSet(cell, ai.height, ai.width), count) in r.knowledge
  {
    var observed := Observe(ai, cell, count);
    var harvested := HarvestFrom(observed, 0);
    HarvestKeeps(observed, 0);
    var r := ReduceKnowledge(harvested);
    assert forall s :: s in r.knowledge ==> cell !in s.cells by {
      forall s | s in r.knowledge ensures cell !in s.cells {
        if s !in harvested.knowledge {
          var s1, s2 :| s1 in harvested.knowledge && s2 in harvested.knowledge && Reduces(s1, s2, s);
        }
      }
    }
    r
  }

  /** When the last of the earlier sentences does not become empty on
      striking the played cell, the walk cannot skip the new neighbour
      sentence behind it: a count of 0 makes
      every neighbour safe, and a count equal to the number of neighbours
      makes every neighbour a mine, within the same call. */
  lemma AddKnowledgeHarvestsObservation(ai: AI, cell: Cell, count: int)
    requires |ai.knowledge| == 0 || ai.knowledge[|ai.knowledge| - 1].cells - {cell} != {}
    ensures count == 0 ==> NeighbourSet(cell, ai.height, ai.width) <= AddKnowledge(ai, cell, count).safes
    ensures count == |NeighbourSet(cell, ai.height, ai.width)| ==>
              NeighbourSet(cell, ai.height, ai.width) <= AddKnowledge(ai, cell, count).mines
  {
    var n := NeighbourSet(cell, ai.height, ai.width);
    if n != {} {
      var observed := Observe(ai, cell, count);
      var last := |ai.knowledge|;
      assert observed.knowledge[last] == Sentence(n, count);
      assert last == 0 || observed.knowledge[last - 1].cells != {};
      HarvestCollects(observed, 0, last);
      var harvested := HarvestFrom(observed, 0);
      assert AddKnowledge(ai, cell, count) == ReduceKnowledge(harvested);
    }
  }

  /** `add_knowledge` keeps the player sound when it is told the truth: the
      played cell is not a mine and `count` is the number of its neighbours
      that are mines. Then no deduction is false and the known mines and
      known safe cells never overlap. */
  lemma AddKnowledgeSound(ai: AI, cell: Cell, count: int, m: set<Cell>)
    requires Sound(ai, m)
    requires cell !in m
    requires count == |NeighbourSet(cell, ai.height, ai.width) * m|
    ensures Sound(AddKnowledge(ai, cell, count), m)
    ensures AddKnowledge(ai, cell, count).mines !! AddKnowledge(ai, cell, count).safes
  {
    var moved := ai.(movesMade := ai.movesMade + {cell});
    MarkSafeSound(moved, cell, m);
    var observed := Observe(ai, cell, count);
    assert Sound(observed, m) by {
      forall s | s in observed.knowledge ensures s.TrueFor(m) {
        var k :| 0 <= k < |observed.knowledge| && observed.knowledge[k] == s;
        if k < |ai.knowledge| {
          assert s == MarkSafe(moved, cell).knowledge[k];
        }
      }
    }
    HarvestSound(observed, 0, m);
    var harvested := HarvestFrom(observed, 0);
    DeriveSound(harvested.knowledge, m);
    var r := ReduceKnowledge(harvested);
    forall s | s in r.knowledge ensures s.TrueFor(m) {
      if s !in harvested.knowledge {
        var s1, s2 :| s1 in harvested.knowledge && s2 in harvested.knowledge && Reduces(s1, s2, s);
        SubtractSound(s1, s2, m);
      }
    }
  }

  // ---- choosing a move ----

  /** A move, or none when no cell qualifies. */
  datatype Option<+T> = None | Some(value: T)

  /** `MinesweeperAI.make_safe_move`: the first cell, in the iteration order
      `order` of the set `safes`, that has not been played yet. */
  method MakeSafeMove(ai: AI, order: seq<Cell>) returns (move: Option<Cell>)
    requires Elements(order) == ai.safes
    ensures move.Some? ==> move.value in ai.safes && move.value !in ai.movesMade
    ensures move.Some? ==> exists k :: 0 <= k < |order| && order[k] == move.value &&
                                       forall j :: 0 <= j < k ==> order[j] in ai.movesMade
    ensures move.None? <==> ai.safes <= ai.movesMade
  {
    var k := 0;
    while k < |order|
      invariant 0 <= k <= |order|
      invariant forall j :: 0 <= j < k ==> order[j] in ai.movesMade
    {
      if order[k] !in ai.movesMade {
        return Some(order[k]);
      }
      k := k + 1;
    }
    return None;
  }

  /** `MinesweeperAI.make_random_move`: some cell of the board that was
      neither played nor is a known mine, or nothing when there is none.
      Which of the candidates is picked is left open. */
  method MakeRandomMove(ai: AI) returns (move: Option<Cell>)
    ensures move.Some? ==> InBounds(move.value, ai.height, ai.width)
                           && move.value !in ai.movesMade && move.value !in ai.mines
    ensures move.None? <==> forall c :: InBounds(c, ai.height, ai.width) ==> c in ai.movesMade || c in ai.mines
  {
    var valid: seq<Cell> := [];
    var i := 0;
    while i < ai.height
      invariant 0 <= i <= ai.height
      invariant forall c :: c in valid <==> InBounds(c, i, ai.width) && c !in ai.movesMade && c !in ai.mines
    {
      var j := 0;
      while j < ai.width
        invariant 0 <= j <= ai.width
        invariant forall c :: c in valid <==>
                    (InBounds(c, i, ai.width) || (c.0 == i && 0 <= c.1 < j)) && c !in ai.movesMade && c !in ai.mines
      {
        if (i, j) !in ai.movesMade && (i, j) !in ai.mines {
          valid := valid + [(i, j)];
        }
        j := j + 1;
      }
      i := i + 1;
    }
    if valid == [] {
      return None;
    }
    var k :| 0 <= k < |valid|;
    return Some(valid[k]);
  }
}

=== FILE: scenarios.dfy ===
/** Small boards worked through by hand, showing how the player behaves as
    written: what one pass of `add_knowledge` deduces and what it leaves for
    a later pass. */
module Scenarios {
  import opened Lists
  import opened Grid
  import opened Logic
  import opened Player

  /** In a single row, the only neighbour of a cell at the left edge is the
      cell to its right. */
  lemma LeftEdgeNeighbour(width: int)
    requires width >= 2
    ensures NeighbourSet((0, 0), 1, width) == {(0, 1)}
  {
    NeighbourSetMembers((0, 0), 1, width);
    var n := NeighbourSet((0, 0), 1, width);
    forall d | d in n ensures d == (0, 1) {
      assert InBounds(d, 1, width) && Adjacent((0, 0), d);
    }
    assert Adjacent((0, 0), (0, 1)) && InBounds((0, 1), 1, width);
  }

  /** On a 1x2 board, playing (0, 0) and seeing one mine next to it makes
      (0, 1) a known mine. The sentence that said so stays in the knowledge
      with (0, 1) still in it: harvested cells are not struck from sentences. */
  lemma OneByTwoFindsMine()
    ensures (0, 1) in AddKnowledge(Init(1, 2), (0, 0), 1).mines
    ensures Sentence({(0, 1)}, 1) in AddKnowledge(Init(1, 2), (0, 0), 1).knowledge
  {
    LeftEdgeNeighbour(2);
    var observed := Observe(Init(1, 2), (0, 0), 1);
    assert observed.knowledge == [Sentence({(0, 1)}, 1)];
    var harvested := HarvestFrom(observed, 0);
    assert Sentence({(0, 1)}, 1).KnownMines() == {(0, 1)};
  }

  /** On a board at least 2x2, the corner (0, 0) touches the three cells
      of the block it starts. */
  lemma CornerNeighbours(height: int, width: int)
    requires height >= 2 && width >= 2
    ensures {(0, 1), (1, 0), (1, 1)} <= NeighbourSet((0, 0), height, width)
  {
    NeighbourSetMembers((0, 0), height, width);
    assert InBounds((0, 1), height, width) && Adjacent((0, 0), (0, 1));
    assert InBounds((1, 0), height, width) && Adjacent((0, 0), (1, 0));
    assert InBounds((1, 1), height, width) && Adjacent((0, 0), (1, 1));
  }

  /** On a 2x2 board, revealing the corner (0, 0) with no neighbouring mine
      makes all three other cells safe in the same call. */
  lemma TwoByTwoZeroClearsNeighbours()
    ensures {(0, 1), (1, 0), (1, 1)} <= AddKnowledge(Init(2, 2), (0, 0), 0).safes
  {
    CornerNeighbours(2, 2);
    AddKnowledgeHarvestsObservation(Init(2, 2), (0, 0), 0);
  }

  /** An empty sentence followed by a sentence with a known mine: the list
      walk removes the empty one, the second slides into its place, and the
      walk moves past it, so its mine is not collected. */
  lemma HarvestSkipsAfterRemoval()
    ensures Sentence({(0, 0)}, 1).KnownMines() == {(0, 0)}
    ensures HarvestFrom(AI(1, 1, {}, {}, {}, [Sentence({}, 0), Sentence({(0, 0)}, 1)]), 0).mines == {}
    ensures HarvestFrom(AI(1, 1, {}, {}, {}, [Sentence({}, 0), Sentence({(0, 0)}, 1)]), 0).knowledge
            == [Sentence({(0, 0)}, 1)]
  {
    var ai := AI(1, 1, {}, {}, {}, [Sentence({}, 0), Sentence({(0, 0)}, 1)]);
    assert RemoveFirst(ai.knowledge, Sentence({}, 0)) == [Sentence({(0, 0)}, 1)];
    assert HarvestFrom(ai, 0) == HarvestFrom(ai.(knowledge := [Sentence({(0, 0)}, 1)]), 1);
  }

  /** Playing (0, 0) on the 1x3 example below: the move is recorded and the
      sentence about its one neighbour is appended. */
  lemma OneByThreeObserve()
    ensures Observe(AI(1, 3, {}, {}, {}, [Sentence({(0, 1), (0, 2)}, 1)]), (0, 0), 1)
            == AI(1, 3, {(0, 0)}, {}, {(0, 0)}, [Sentence({(0, 1), (0, 2)}, 1), Sentence({(0, 1)}, 1)])
  {
    var s12 := Sentence({(0, 1), (0, 2)}, 1);
    var marked := MarkSafe(AI(1, 3, {(0, 0)}, {}, {}, [s12]), (0, 0));
    assert marked == AI(1, 3, {(0, 0)}, {}, {(0, 0)}, [s12]) by {
      assert marked.knowledge[0] == s12;
    }
    assert NeighbourSet((0, 0), 1, 3) == {(0, 1)} by {
      LeftEdgeNeighbour(3);
    }
  }

  /** The harvest of the 1x3 example below: (0, 1) becomes a known mine,
      nothing beyond the played cell becomes safe, no sentence is dropped. */
  lemma OneByThreeHarvest()
    ensures HarvestFrom(AI(1, 3, {(0, 0)}, {}, {(0, 0)}, [Sentence({(0, 1), (0, 2)}, 1), Sentence({(0, 1)}, 1)]), 0)
            == AI(1, 3, {(0, 0)}, {(0, 1)}, {(0, 0)}, [Sentence({(0, 1), (0, 2)}, 1), Sentence({(0, 1)}, 1)])
  {
    var ks := [Sentence({(0, 1), (0, 2)}, 1), Sentence({(0, 1)}, 1)];
    assert Sentence({(0, 1), (0, 2)}, 1).KnownMines() == {};
    assert Sentence({(0, 1), (0, 2)}, 1).KnownSafes() == {};
    assert Sentence({(0, 1)}, 1).KnownMines() == {(0, 1)};
    assert Sentence({(0, 1)}, 1).KnownSafes() == {};
    var a0 := AI(1, 3, {(0, 0)}, {}, {(0, 0)}, ks);
    var a2 := AI(1, 3, {(0, 0)}, {(0, 1)}, {(0, 0)}, ks);
    assert HarvestFrom(a0, 0) == HarvestFrom(a0, 1);
    assert HarvestFrom(a0, 1) == HarvestFrom(a2, 2);
  }

  /** The reduction of the 1x3 example below derives "no mine at (0, 2)". */
  lemma OneByThreeReduce()
    ensures var r := ReduceKnowledge(AI(1, 3, {(0, 0)}, {(0, 1)}, {(0, 0)},
                                        [Sentence({(0, 1), (0, 2)}, 1), Sentence({(0, 1)}, 1)]));
            && r.mines == {(0, 1)}
            && r.safes == {(0, 0)}
            && Sentence({(0, 2)}, 0) in r.knowledge
  {
    var s1 := Sentence({(0, 1)}, 1);
    var s12 := Sentence({(0, 1), (0, 2)}, 1);
    var harvested := AI(1, 3, {(0, 0)}, {(0, 1)}, {(0, 0)}, [s12, s1]);
    assert s1 in harvested.knowledge && s12 in harvested.knowledge;
    assert s1 != s12 && s1.cells <= s12.cells;
    assert Subtract(s1, s12) == Sentence({(0, 2)}, 0);
  }

  /** On a 1x3 board that already believes "one mine among (0, 1) and
      (0, 2)", playing (0, 0) with one neighbouring mine finds the mine at
      (0, 1) and derives "no mine at (0, 2)", but the same pass does not
      record (0, 2) as safe: that waits for the next call. */
  lemma SinglePassDefersSafeCell()
    ensures var before := AI(1, 3, {}, {}, {}, [Sentence({(0, 1), (0, 2)}, 1)]);
            var after := AddKnowledge(before, (0, 0), 1);
            && (0, 1) in after.mines
            && Sentence({(0, 2)}, 0) in after.knowledge
            && (0, 2) !in after.safes
  {
    var before := AI(1, 3, {}, {}, {}, [Sentence({(0, 1), (0, 2)}, 1)]);
    var harvested := AI(1, 3, {(0, 0)}, {(0, 1)}, {(0, 0)}, [Sentence({(0, 1), (0, 2)}, 1), Sentence({(0, 1)}, 1)]);
    assert AddKnowledge(before, (0, 0), 1) == ReduceKnowledge(harvested) by {
      OneByThreeObserve();
      OneByThreeHarvest();
    }
    OneByThreeReduce();
  }
}

=== FILE: sentence.dfy ===
/** `Sentence`: the logical statement "exactly `count` of these `cells` are
    mines". Python compares sentences by their cell set and count; a Dafny
    datatype has that value equality built in. */
module Logic {
  import opened Grid

  datatype Sentence = Sentence(cells: set<Cell>, count: int) {

    /** The sentence holds when the mines are exactly `m`. */
    ghost predicate TrueFor(m: set<Cell>) {
      |cells * m| == count
    }

    /** `Sentence.known_mines`: all cells, when every one of them must be a mine. */
    function KnownMines(): (r: set<Cell>)
      ensures r <= cells
      ensures r == {} || r == cells
      ensures r != {} ==> 0 <= count <= |cells|
    {
      if count == |cells| then cells else {}
    }

    /** `Sentence.known_safes`: all cells, when none of them may be a mine. */
    function KnownSafes(): (r: set<Cell>)
      ensures r <= cells
      ensures r == {} || r == cells
      ensures r != {} ==> 0 <= count <= |cells|
    {
      if count == 0 then cells else {}
    }

    /** `Sentence.mark_mine`: drop a cell now known to be a mine, and the
        mine with it. The number of non-mines, `|cells| - count`, is kept. */
    function MarkMine(c: Cell): (r: Sentence)
      ensures r.cells == cells - {c}
      ensures |r.cells| - r.count == |cells| - count
      ensures c !in cells ==> r == this
    {
      if c in cells then Sentence(cells - {c}, count - 1) else this
    }

    /** `Sentence.mark_safe`: drop a cell now known to be safe; the count
        of mines among the rest is unchanged. */
    function MarkSafe(c: Cell): (r: Sentence)
      ensures r.cells == cells - {c}
      ensures r.count == count
      ensures c !in cells ==> r == this
    {
      if c in cells then Sentence(cells - {c}, count) else this
    }
  }

  /** Every mine set that makes `s` true contains `x`. */
  ghost predicate ForcedMine(s: Sentence, x: Cell) {
    forall m: set<Cell> :: s.TrueFor(m) ==> x in m
  }

  /** No mine set that makes `s` true contains `x`. */
  ghost predicate ForcedSafe(s: Sentence, x: Cell) {
    forall m: set<Cell> :: s.TrueFor(m) ==> x !in m
  }

  /** The subset reduction of the player: when `s1.cells` is part of
      `s2.cells`, the rest of `s2.cells` holds `s2.count - s1.count` mines. */
  function Subtract(s1: Sentence, s2: Sentence): Sentence {
    Sentence(s2.cells - s1.cells, s2.count - s1.count)
  }

  // ---- cardinality facts ----

  /** Some subset of `s` has exactly `k` elements. */
  lemma {:induction false} SubsetOfSize(s: set<Cell>, k: nat) returns (t: set<Cell>)
    requires k <= |s|
    ensures t <= s && |t| == k
  {
    if k == 0 {
      t := {};
    } else {
      var x :| x in s;
      var t' := SubsetOfSize(s - {x}, k - 1);
      t := t' + {x};
    }
  }

  /** Splitting `a` at a part `b` splits its mine count too. */
  lemma SplitCount(a: set<Cell>, b: set<Cell>, m: set<Cell>)
    requires b <= a
    ensures |a * m| == |(a - b) * m| + |b * m|
  {
    assert a * m == (a - b) * m + b * m;
    assert ((a - b) * m) * (b * m) == {};
  }

  /** A part of `a` as large as `a` is all of `a`. */
  lemma FullSubset(a: set<Cell>, b: set<Cell>)
    requires b <= a && |b| == |a|
    ensures b == a
  {
    assert a == b + (a - b);
    assert |a - b| == 0;
  }

  // ---- known_mines and known_safes ----

  /** A true sentence's known mines are mines. */
  lemma KnownMinesSound(s: Sentence, m: set<Cell>)
    requires s.TrueFor(m)
    ensures s.KnownMines() <= m
  {
    if s.count == |s.cells| {
      FullSubset(s.cells, s.cells * m);
    }
  }

  /** A true sentence's known safes are not mines. */
  lemma KnownSafesSound(s: Sentence, m: set<Cell>)
    requires s.TrueFor(m)
    ensures s.KnownSafes() !! m
  {
    if s.count == 0 {
      assert s.cells * m == {};
      forall x | x in s.cells ensures x !in m {
        assert x !in s.cells * m;
      }
    }
  }

  /** For a sentence that some mine set satisfies, `known_mines` finds exactly
      the cells the sentence alone forces to be mines. */
  lemma KnownMinesExact(s: Sentence, x: Cell)
    requires 0 <= s.count <= |s.cells|
    ensures x in s.KnownMines() <==> ForcedMine(s, x)
  {
    if x in s.KnownMines() {
      forall m: set<Cell> | s.TrueFor(m) ensures x in m {
        KnownMinesSound(s, m);
      }
    } else if s.count == |s.cells| {
      // x is outside the cells: the cells themselves are a mine set without x
      assert s.cells * s.cells == s.cells;
      assert s.TrueFor(s.cells);
    } else {
      var rest := s.cells - {x};
      assert |rest| >= s.count by {
        if x in s.cells {
          assert |rest| == |s.cells| - 1;
        }
      }
      var m := SubsetOfSize(rest, s.count);
      assert s.cells * m == m;
      assert s.TrueFor(m) && x !in m;
    }
  }

  /** For a sentence that some mine set satisfies, `known_safes` finds exactly
      the cells the sentence alone forces to be safe. */
  lemma KnownSafesExact(s: Sentence, x: Cell)
    requires 0 <= s.count <= |s.cells|
    ensures x in s.KnownSafes() <==> ForcedSafe(s, x)
  {
    if x in s.KnownSafes() {
      forall m: set<Cell> | s.TrueFor(m) ensures x !in m {
        KnownSafesSound(s, m);
      }
    } else if s.count == 0 {
      // x is outside the cells: a lone mine at x leaves the sentence true
      assert s.cells * {x} == {};
      assert s.TrueFor({x});
    } else {
      var rest := s.cells - {x};
      var k := if x in s.cells then s.count - 1 else s.count;
      assert |rest| >= k by {
        if x in s.cells {
          assert |rest| == |s.cells| - 1;
        }
      }
      var t := SubsetOfSize(rest, k);
      var m := t + {x};
      assert s.cells * m == (if x in s.cells then t + {x} else t);
      assert s.TrueFor(m) && x in m;
    }
  }

  // ---- mark_mine and mark_safe ----

  /** Removing a real mine keeps a sentence's truth, in both directions. */
  lemma MarkMineTruth(s: Sentence, c: Cell, m: set<Cell>)
    requires c in m
    ensures s.TrueFor(m) <==> s.MarkMine(c).TrueFor(m)
  {
    if c in s.cells {
      SplitCount(s.cells, {c}, m);
      assert {c} * m == {c};
    }
  }

  /** Removing a real non-mine keeps a sentence's truth, in both directions. */
  lemma MarkSafeTruth(s: Sentence, c: Cell, m: set<Cell>)
    requires c !in m
    ensures s.TrueFor(m) <==> s.MarkSafe(c).TrueFor(m)
  {
    if c in s.cells {
      SplitCount(s.cells, {c}, m);
      assert {c} * m == {};
    }
  }

  /** A second `mark_mine` of the same cell changes nothing. */
  lemma MarkMineIdempotent(s: Sentence, c: Cell)
    ensures s.MarkMine(c).MarkMine(c) == s.MarkMine(c)
  {
  }

  /** A second `mark_safe` of the same cell changes nothing. */
  lemma MarkSafeIdempotent(s: Sentence, c: Cell)
    ensures s.MarkSafe(c).MarkSafe(c) == s.MarkSafe(c)
  {
  }

  // ---- subset reduction ----

  /** Subtracting a true sentence from a true sentence over a superset of its
      cells gives a true sentence, with a count that is not negative. */
  lemma SubtractSound(s1: Sentence, s2: Sentence, m: set<Cell>)
    requires s1.cells <= s2.cells
    requires s1.TrueFor(m) && s2.TrueFor(m)
    ensures Subtract(s1, s2).TrueFor(m)
    ensures Subtract(s1, s2).count >= 0
  {
    SplitCount(s2.cells, s1.cells, m);
  }
}
